=== FILE: README.md ===
# Regression-report annotator and mailer: a Dafny model

This project models the two pieces of pure logic in a small tool. The tool
annotates the Boost regression-test "unexpected new failures" report and then
mails it.

- **Failure classification (`main.cpp`).** Each failure cell in the report
  links to a build log. A relative link is turned into a global URL under the
  `develop` branch's test results (`Links.Globalize`). The log is then put
  through a fixed first-match rule chain (`Classifier.Classify`). The chain
  gives exactly one of the labels `time`, `file`, `ierr`, `comp`, `link`,
  `run` or `unkn`, and the first five also add a background colour
  (`Classifier.StyleOf`). The three "stage … fail" rules use Boost regular
  expressions with `match_not_dot_newline`. They are specified by the
  regular expression's meaning (`Classifier.StageFails`) and computed by a
  line-by-line search proved equal to it.
- **Mail delivery (`mail.hpp`).** `mail::send` speaks the client side of
  the SMTP dialogue of section 4.1.1 of RFC 5321, with the transport
  stripped away:
  - which requests are written, with which terminators;
  - which reply codes (section 4.2 of RFC 5321) are expected;
  - the header block of From, To and Subject fields (section 3.6 of
    RFC 5322) followed by the message.

  `expect_response` is modelled down to how C++ stream extraction reads the
  reply code. A whole conversation against a list of server replies is
  `Smtp.Converse`. `mail::config` is modelled over the lines of the
  configuration file (`MailConfig.ParseConfig`).

Modules:
- `Wrappers`: `Option`, `Result` and `Outcome`.
- `Text`: substring search and line splitting.
- `Decimal`: decimal digits.
- `Classifier`
- `Links`
- `Smtp`
- `MailConfig`

Line separators: Boost's `match_not_dot_newline` stops `.` at the separators
of its narrow-character traits. These are line feed, carriage return and
form feed, and the model uses exactly that set (`Text.IsLineBreak`).

## Model

| member | source | states |
|---|---|---|
| Classifier.Classify | main.cpp:100-165 | The label is the first rule in chain order (time, file, ierr, comp, link, run) whose condition holds for the log. No earlier rule holds. `unkn` is given only when no rule holds, so every log gets exactly one label. |
| Classifier.StyleOf | main.cpp:100-165 | A style is added exactly for the labels ranked before `run` (time, file, ierr, comp, link). `run` and `unkn` get none. |
| Classifier.TimeLimitAnywhere | main.cpp:100-107 | A log containing "second time limit exceeded" anywhere is labelled `time`, whatever else it contains. |
| Classifier.LineReportsFailureCorrect | main.cpp:129-133 | On one line, looking for "fail" at least one character after the first keyword occurrence finds a match exactly when the stage's regular expression matches. |
| Classifier.SplitAtBreak | main.cpp:129-133 | No match spans a line separator: a text matches exactly when the part before a separator or the part after it matches. |
| Classifier.MatchIsLineLocal | main.cpp:129-133 | The stage's regular expression matches a log exactly when it matches one of the log's lines. |
| Classifier.SomeLineReportsFailureCorrect | main.cpp:129-157 | Over any list of single lines, the per-line executable test finds a failing line exactly when some line matches the regular expression. |
| Classifier.ReportsFailure | main.cpp:128-157 | The executable stage test holds exactly when the stage's regular expression `(Stage).+(fail).*$` matches somewhere in the log. |
| Classifier.StageFailsNeedsBoth | main.cpp:129-157 | Every stage match contains both the stage keyword and "fail". |
| Classifier.SeparateLinesDoNotMatch | main.cpp:129-157 | A keyword on one line and "fail" on the next, with no keyword and "fail" together on a line, give no match. |
| Classifier.KeywordTouchingFail | main.cpp:131 | `.+` needs a character: the keyword immediately followed by "fail" does not match. |
| Classifier.KeywordThenFail | main.cpp:131 | The keyword, one non-separator character, then "fail" matches. |
| Classifier.Annotate | main.cpp:91-165 | A download that reports an error leaves the cell without label or style. Otherwise the cell text is the label's text and the style is the label's style. |
| Classifier.LabelTextInjective | main.cpp:106-164 | Distinct labels are written as distinct cell texts. |
| Text.FindFrom | main.cpp:101 | The result is the first occurrence at or after the start index. No result means no occurrence there. |
| Text.Contains | main.cpp:101 | `find(p) != npos` holds exactly when the pattern occurs somewhere in the text. |
| Text.DropLeading | main.cpp:205-208 | The result is a suffix of the input. Every removed character is a `/`. The result does not start with `/`. |
| Links.BranchUrlIsAbsolute | main.cpp:19-22 | The branch URL, and anything appended to it, begins with "http://". |
| Links.Globalize | main.cpp:201-214 | A link containing "http://" is unchanged. Any other link becomes the branch URL followed by the link with every leading `/` removed. That rest is a suffix of the link, it does not start with `/`, and every removed character was a `/`. The result always contains "http://". |
| Links.GlobalizeIdempotent | main.cpp:201-214 | Globalizing a globalized link changes nothing. |
| Links.LeadingSlashesIgnored | main.cpp:204-210 | A relative link with an extra leading `/` resolves to the same URL. |
| Links.ProcessCell | main.cpp:173-216 | A cell is processed exactly when it is a `td` with the unexpected-new-failure class and an anchor with an `href`. The link written back is the cell's link made global by `Globalize`, and an already-global link is kept. The annotation is the one for the log fetched from the link written back. |
| Links.ProcessCellStable | main.cpp:201-216 | Processing a cell again after its link was written back writes the same link and reads the same log. |
| Smtp.PayloadSplitsAtBlankLine | mail.hpp:90-108 | The specification of `Smtp.Payload`. When no recipient and not the subject holds a CR or LF, the first empty line of the text sent after DATA directly follows the header block, and the text after that empty line is the message exactly. |
| Smtp.BlankLineInSubjectEndsHeaderEarly | mail.hpp:106 | The subject is not escaped: a subject holding CRLF CRLF puts an empty line inside the header block. |
| Smtp.SplitJoin | mail.hpp:92-102 | For comma-free addresses, splitting the recipient list at ", " gives back the recipients in order. |
| Smtp.ToFieldReadsBack | mail.hpp:92-102 | With at least one recipient, the To field is "To: ", the recipients in order separated by ", ", then CRLF. |
| Smtp.NoRecipientsMergesFields | mail.hpp:92-106 | With no recipients, the To field gets no CRLF and runs into the Subject field. |
| Smtp.Dialogue | mail.hpp:76-116 | A dialogue with n recipients has 2n + 11 steps. |
| Smtp.DialogueAlternates | mail.hpp:76-116 | The dialogue opens with a reply check, and the steps then alternate request, check. |
| Smtp.DialogueCodes | mail.hpp:76-116 | The checked codes are 220, 250, 250, then one 250 per recipient, then 354, 250 and 221: n + 6 checks for n recipients. |
| Smtp.DialogueCommands | mail.hpp:76-116 | The requests written are HELO, MAIL FROM with the fixed sender, one RCPT TO per recipient in input order, DATA, the payload and QUIT. Every request ends in CRLF. The payload ends in CRLF "." CRLF. |
| Smtp.UnstuffedMarkerEndsDataEarly | mail.hpp:30-33 | With no dot-stuffing, a message containing CRLF "." CRLF puts the end-of-data marker on the wire before the real end of the data. |
| Smtp.ExtractCode | mail.hpp:46-47 | A failed read stores 0 or the largest `unsigned`. A good read stops before a non-digit. |
| Smtp.ExtractCodeReadsNumber | mail.hpp:46-47 | A good read splits the reply into white space, a non-empty digit run stored as its value, and a rest that does not start with a digit. A failed read stores either 0, when no digit follows the leading white space, or the largest `unsigned`, when such a digit run exists but its value is too large. |
| Smtp.LineOf | mail.hpp:51-52 | `getline` returns a prefix of the rest with no line feed in it, stopping at the first line feed. |
| Smtp.CheckReply | mail.hpp:35-55 | Code 0 accepts any reply. Any other code accepts exactly a reply whose code, as `>>` stores it, equals that code; that stored code is the largest `unsigned` when the number overflows. A reply with no number fails with an empty message. So does an overflowing number, unless the largest `unsigned` was expected. A readable number other than the expected one fails with the rest of the reply after the number, up to the first line feed. |
| Smtp.CheckReplyErrorOnOneLine | mail.hpp:49-54 | The message of a failed check never contains a line feed. |
| Smtp.ReplyLineCode | mail.hpp:46-47 | The code at the start of a well-formed reply line is read back exactly. The stream stays good. |
| Smtp.LineOfCrlf | mail.hpp:51-52 | `getline` on a CRLF-terminated line keeps the carriage return. |
| Smtp.CheckReplyLine | mail.hpp:35-55 | A reply line with code c passes the check for e exactly when e is 0 or c. On failure the message is the line's text after the code, including the leading space and trailing CR. |
| Smtp.Converse | mail.hpp:35-116 | The client has written a prefix of its requests. The conversation is delivered exactly when every check passes on its reply, in order. A delivered conversation has written every request. |
| Smtp.ConverseStopsAtFailure | mail.hpp:35-116 | If every check before a given one passes on its reply, the conversation stops at that check having written exactly the requests before it. It stops with `Closed` when no reply is left, and with the check's own message when the next reply fails it. |
| Smtp.ConformingServerDelivers | mail.hpp:76-116 | Against a server that answers each check with a reply line carrying the expected code, the whole dialogue is delivered. |
| Smtp.FirstCheckStops | mail.hpp:35-55 | A conversation that opens with a check stops there, having written nothing, when the first reply is missing or fails the check. |
| Smtp.GreetingRefused | mail.hpp:76-77 | A server whose greeting line carries any code but 220 gets nothing written to it, not even HELO, and the error is the greeting's text after the code. |
| Smtp.SilentServer | mail.hpp:35-38 | A server that never replies gets nothing written to it. |
| Decimal.ValueOfShow | mail.hpp:46-47 | A number written in decimal reads back as the same number. |
| Decimal.DigitRunOfDigits | mail.hpp:46-47 | Stream extraction takes exactly the digits up to the first non-digit. |
| MailConfig.NonEmptyLines | mail.hpp:128-134 | The kept lines are all non-empty. None are kept exactly when all lines are empty. |
| MailConfig.NonEmptyLinesAppend | mail.hpp:128-134 | Dropping empty lines keeps the relative order of the recipients. |
| MailConfig.ParseConfig | mail.hpp:121-139 | Loading succeeds exactly when the first line, the second line and some later line are non-empty. The host and service are the first two lines. The recipients are the later non-empty lines in order. A failure carries "couldn't load config". |
| MailConfig.ParseRender | mail.hpp:121-139 | A complete configuration laid out as a line list (host, service, then one recipient per line) reads back unchanged, with or without a trailing empty line. |

## Left out

- `get_document` (main.cpp:25-55): the HTTP fetch is a parameter of
  `Links.ProcessCell`, a function from URL to body and error message.
- The rapidxml document is not modelled: parsing, printing, attribute
  allocation, whitespace-node removal and the recursive walk of
  `process_node`. A cell is reduced to its tag, its `class` attribute and
  its first anchor (`Links.Cell`).
- The progress and error messages written to the console.
- The debug statement inside `process_node` that fires on "BP" has no effect
  and is not modelled.
- `main`: argument handling, the stylesheet download, and creating and
  writing files.
- Socket resolution, connection, `asio::write` and `read_until` are not
  modelled. Replies reach `Smtp.Converse` already split into lines, one per
  check. Multi-line replies (section 4.2 of RFC 5321) are not modelled.
- Host and service in `mail::send` only choose the connection, so the
  dialogue does not depend on them.
- Opening the configuration file is not modelled. A file that cannot be
  opened reads as no lines, which fails like an empty file.
- Smtp.ExtractCode: a sign before the digits is not modelled. Stream
  extraction into `unsigned` accepts `+` and `-`, but SMTP reply codes never
  carry one.
- Classifier.StageFails: only the separator set of narrow characters
  (line feed, carriage return, form feed) is modelled. The wide-character
  separators cannot occur in a `char` log.
- The tool does not re-fetch failed logs, escalate to nested logs or diff
  report snapshots, so none of these is modelled. Of the file-system
  failures it recognises only "File too big", and the model does the same.
- `get_document` reports an empty body as an error ("Unknown error.",
  main.cpp:44-47), so an empty log with no error never reaches
  `modify_nodes`. The `fetch` parameter of `Links.ProcessCell` is
  unconstrained and can return that case, which `Classifier.Annotate`
  labels `unkn`.
- Logs, reply lines and configuration lines are byte strings in the
  program. They are modelled one byte per Dafny `char`.
- MailConfig.ParseRender: the round trip is stated over line lists. A field
  holding a line feed would be split into two lines once written to a real
  file, which the model does not follow.
- Smtp.PayloadSplitsAtBlankLine: requires the subject and recipients to be
  free of CR and LF. The program does not enforce this, and
  `Smtp.BlankLineInSubjectEndsHeaderEarly` shows what happens otherwise.

=== FILE: classifier.dfy ===
/**
 The failure-log classifier of `modify_nodes`: a fixed first-match rule chain
 that gives every downloaded log exactly one label, plus the background style
 some labels add to the table cell.
 */
module Classifier {
  import opened Wrappers
  import opened Text

  /** The seven labels the rule chain can assign. */
  datatype Label = Time | File | InternalError | CompileFail | LinkFail | RunFail | Unknown

  /** The three build stages whose "… fail" line the last rules look for. */
  datatype Stage = Compile | Link | Run

  const TimeLimitText: string := "second time limit exceeded"
  const FileTooBigText: string := "File too big"
  const InternalCompilerErrorText: string := "internal compiler error"
  const InternalErrorText: string := "internal error"
  const FailText: string := "fail"

  /** The literal that opens the stage's regular expression `(Stage).+(fail).*$`. */
  function Keyword(st: Stage): string
  {
    match st
    case Compile => "Compile"
    case Link => "Link"
    case Run => "Run"
  }

  /** The text written into the cell's anchor for each label. */
  function LabelText(l: Label): string
  {
    match l
    case Time => "time"
    case File => "file"
    case InternalError => "ierr"
    case CompileFail => "comp"
    case LinkFail => "link"
    case RunFail => "run"
    case Unknown => "unkn"
  }

  /** Position of a label's rule in the chain; `Unknown` is the fallback after all of them. */
  function Rank(l: Label): nat
  {
    match l
    case Time => 0
    case File => 1
    case InternalError => 2
    case CompileFail => 3
    case LinkFail => 4
    case RunFail => 5
    case Unknown => 6
  }

  /**
   A match of `(Keyword).+(fail).*$` under `match_not_dot_newline`: the keyword
   starts at `i`, "fail" starts at `j`, at least one character lies between
   them, and no line separator occurs from the keyword up to "fail". The
   trailing `.*$` always matches (it consumes the rest of the line).
   */
  ghost predicate StageMatch(log: string, st: Stage, i: int, j: int)
  {
    && Occurs(Keyword(st), log, i)
    && Occurs(FailText, log, j)
    && i + |Keyword(st)| < j
    && OnOneLine(log[i..j])
  }

  /** The stage's regular expression finds a match somewhere in the log. */
  ghost predicate StageFails(log: string, st: Stage)
  {
    exists i, j :: StageMatch(log, st, i, j)
  }

  /** The condition under which each rule of the chain fires, as the searches in `modify_nodes` define them. */
  ghost predicate Fires(rule: Label, log: string)
  {
    match rule
    case Time => HasSubstring(log, TimeLimitText)
    case File => HasSubstring(log, FileTooBigText)
    case InternalError => HasSubstring(log, InternalCompilerErrorText) || HasSubstring(log, InternalErrorText)
    case CompileFail => StageFails(log, Compile)
    case LinkFail => StageFails(log, Link)
    case RunFail => StageFails(log, Run)
    case Unknown => true
  }

  /**
   Executable test on one line: take the first keyword occurrence and look for
   "fail" starting at least one character after it.
   */
  predicate LineReportsFailure(line: string, st: Stage)
  {
    match FindFrom(line, Keyword(st), 0)
    case None => false
    case Some(i) => FindFrom(line, FailText, i + |Keyword(st)| + 1).Some?
  }

  /** On a single line, looking only after the first keyword finds every match. */
  lemma LineReportsFailureCorrect(line: string, st: Stage)
    requires OnOneLine(line)
    ensures LineReportsFailure(line, st) <==> StageFails(line, st)
  {
    var kw := Keyword(st);
    match FindFrom(line, kw, 0)
    case None =>
    case Some(i0) =>
      match FindFrom(line, FailText, i0 + |kw| + 1)
      case Some(j0) =>
        assert StageMatch(line, st, i0, j0);
      case None =>
  }

  /** The characters of "fail" are not line separators. */
  lemma FailTextOnOneLine(log: string, j: int)
    requires Occurs(FailText, log, j)
    ensures OnOneLine(log[j..j + |FailText|])
  {
  }

  /** A keyword never starts with a line separator. */
  lemma KeywordOnOneLine(log: string, st: Stage, i: int)
    requires Occurs(Keyword(st), log, i)
    ensures !IsLineBreak(log[i])
  {
    assert log[i] == log[i..i + |Keyword(st)|][0];
  }

  /** A match that starts before the separator at `b` lies wholly before it. */
  lemma MatchBeforeBreak(s: string, b: nat, st: Stage, i: int, j: int)
    requires b < |s| && IsLineBreak(s[b])
    requires StageMatch(s, st, i, j) && i <= b
    ensures StageMatch(s[..b], st, i, j)
  {
    var kw := Keyword(st);
    KeywordOnOneLine(s, st, i);
    FailTextOnOneLine(s, j);
    OccursInPrefix(kw, s, b, i);
    OccursInPrefix(FailText, s, b, j);
    assert s[..b][i..j] == s[i..j];
  }

  /** A match that starts after the separator at `b` is a match of the text after it. */
  lemma MatchAfterBreak(s: string, b: nat, st: Stage, i: int, j: int)
    requires b < |s|
    requires StageMatch(s, st, i, j) && b < i
    ensures StageMatch(s[b + 1..], st, i - (b + 1), j - (b + 1))
  {
    var d := b + 1;
    OccursInSuffix(Keyword(st), s, d, i - d);
    OccursInSuffix(FailText, s, d, j - d);
    assert s[d..][i - d..j - d] == s[i..j];
  }

  /** A match in a prefix is a match in the whole text. */
  lemma MatchOfPrefix(s: string, n: nat, st: Stage, i: int, j: int)
    requires n <= |s| && StageMatch(s[..n], st, i, j)
    ensures StageMatch(s, st, i, j)
  {
    OccursInPrefix(Keyword(st), s, n, i);
    OccursInPrefix(FailText, s, n, j);
    assert s[..n][i..j] == s[i..j];
  }

  /** A match in a suffix is a match in the whole text, shifted by `d`. */
  lemma MatchOfSuffix(s: string, d: nat, st: Stage, i: int, j: int)
    requires d <= |s| && StageMatch(s[d..], st, i, j)
    ensures StageMatch(s, st, i + d, j + d)
  {
    OccursInSuffix(Keyword(st), s, d, i);
    OccursInSuffix(FailText, s, d, j);
    assert s[d..][i..j] == s[i + d..j + d];
  }

  /**
   A match never spans the separator at `b`: the log matches exactly when the
   text before the separator or the text after it matches.
   */
  lemma SplitAtBreak(s: string, b: nat, st: Stage)
    requires b < |s| && IsLineBreak(s[b])
    ensures StageFails(s, st) <==> StageFails(s[..b], st) || StageFails(s[b + 1..], st)
  {
    if StageFails(s, st) {
      var i, j :| StageMatch(s, st, i, j);
      if i <= b {
        MatchBeforeBreak(s, b, st, i, j);
      } else {
        MatchAfterBreak(s, b, st, i, j);
      }
    }
    if StageFails(s[..b], st) {
      var i, j :| StageMatch(s[..b], st, i, j);
      MatchOfPrefix(s, b, st, i, j);
    }
    if StageFails(s[b + 1..], st) {
      var i, j :| StageMatch(s[b + 1..], st, i, j);
      MatchOfSuffix(s, b + 1, st, i, j);
    }
  }

  /** Some line of `ls` matches the stage's regular expression. */
  ghost predicate SomeLineFails(ls: seq<string>, st: Stage)
    decreases |ls|
  {
    |ls| > 0 && (StageFails(ls[0], st) || SomeLineFails(ls[1..], st))
  }

  /** Splitting off the first line of a list of lines. */
  lemma SomeLineFailsCons(first: string, ls: seq<string>, st: Stage)
    ensures SomeLineFails([first] + ls, st) <==> StageFails(first, st) || SomeLineFails(ls, st)
  {
    assert ([first] + ls)[1..] == ls;
  }

  /**
   Matching is line-local: the stage's regular expression matches the log
   exactly when it matches one of the log's lines.
   */
  lemma {:induction false} MatchIsLineLocal(log: string, st: Stage)
    ensures StageFails(log, st) <==> SomeLineFails(Lines(log), st)
    decreases |log|
  {
    var e := LineEnd(log);
    if e == |log| {
      assert Lines(log) == [log];
      assert log[..e] == log;
      SomeLineFailsCons(log, [], st);
    } else {
      var rest := log[e + 1..];
      assert Lines(log) == [log[..e]] + Lines(rest);
      MatchIsLineLocal(rest, st);
      SplitAtBreak(log, e, st);
      SomeLineFailsCons(log[..e], Lines(rest), st);
    }
  }

  /** Executable form of a stage rule: some line of the log reports the stage failing. */
  function ReportsFailure(log: string, st: Stage): (b: bool)
    ensures b <==> StageFails(log, st)
  {
    LinesReportFailure(log, st);
    SomeLineReportsFailure(Lines(log), st)
  }

  /** Some line of `ls` reports the stage failing. */
  predicate SomeLineReportsFailure(ls: seq<string>, st: Stage)
    decreases |ls|
  {
    |ls| > 0 && (LineReportsFailure(ls[0], st) || SomeLineReportsFailure(ls[1..], st))
  }

  /** The per-line executable test agrees with the regular expression on every list of lines. */
  lemma {:induction false} SomeLineReportsFailureCorrect(ls: seq<string>, st: Stage)
    requires forall k :: 0 <= k < |ls| ==> OnOneLine(ls[k])
    ensures SomeLineReportsFailure(ls, st) <==> SomeLineFails(ls, st)
    decreases |ls|
  {
    if |ls| > 0 {
      LineReportsFailureCorrect(ls[0], st);
      SomeLineReportsFailureCorrect(ls[1..], st);
    }
  }

  /** Connects the per-line executable test with the regular expression's meaning. */
  lemma LinesReportFailure(log: string, st: Stage)
    ensures SomeLineReportsFailure(Lines(log), st) <==> StageFails(log, st)
  {
    SomeLineReportsFailureCorrect(Lines(log), st);
    MatchIsLineLocal(log, st);
  }

  /**
   The rule chain of `modify_nodes`: the label is that of the first rule in
   chain order that fires, and `Unknown` when none does.
   */
  function Classify(log: string): (l: Label)
    ensures Fires(l, log)
    ensures forall e :: Rank(e) < Rank(l) ==> !Fires(e, log)
  {
    if Contains(log, TimeLimitText) then Time
    else if Contains(log, FileTooBigText) then File
    else if Contains(log, InternalCompilerErrorText) || Contains(log, InternalErrorText) then InternalError
    else if ReportsFailure(log, Compile) then CompileFail
    else if ReportsFailure(log, Link) then LinkFail
    else if ReportsFailure(log, Run) then RunFail
    else Unknown
  }

  /** The `style` attribute added to the cell for a label, if any. */
  function StyleOf(l: Label): (s: Option<string>)
    ensures s.Some? <==> Rank(l) < Rank(RunFail)
  {
    match l
    case Time => Some("background-color: #88ff00;")
    case File => Some("background-color: #00ff88;")
    case InternalError => Some("background-color: #ff88ff;")
    case CompileFail => Some("background-color: #ffbb00;")
    case LinkFail => Some("background-color: #ffdd00;")
    case RunFail => None
    case Unknown => None
  }

  /** The first rule wins whatever else the log holds: a time-limit notice anywhere gives `Time`. */
  lemma TimeLimitAnywhere(before: string, after: string)
    ensures Classify(before + TimeLimitText + after) == Time
  {
    OccursBetween(before, TimeLimitText, after);
  }

  /** Every match contains the keyword and "fail". */
  lemma StageFailsNeedsBoth(log: string, st: Stage)
    requires StageFails(log, st)
    ensures HasSubstring(log, Keyword(st)) && HasSubstring(log, FailText)
  {
    var i, j :| StageMatch(log, st, i, j);
  }

  /**
   A keyword on one line and "fail" on the next do not make a match: when the
   first line has no "fail" and the second has no keyword, nothing matches.
   */
  lemma SeparateLinesDoNotMatch(first: string, brk: char, second: string, st: Stage)
    requires IsLineBreak(brk)
    requires !HasSubstring(first, FailText) && !HasSubstring(second, Keyword(st))
    ensures !StageFails(first + [brk] + second, st)
  {
    var s := first + [brk] + second;
    SplitAtBreak(s, |first|, st);
    assert s[..|first|] == first;
    assert s[|first| + 1..] == second;
    if StageFails(first, st) {
      StageFailsNeedsBoth(first, st);
    }
    if StageFails(second, st) {
      StageFailsNeedsBoth(second, st);
    }
  }

  /** `.+` needs at least one character: the keyword directly followed by "fail" does not match. */
  lemma KeywordTouchingFail(st: Stage)
    ensures !StageFails(Keyword(st) + FailText, st)
  {
  }

  /** One non-separator character between the keyword and "fail" is enough for a match. */
  lemma KeywordThenFail(st: Stage, gap: char)
    requires !IsLineBreak(gap)
    ensures StageFails(Keyword(st) + [gap] + FailText, st)
  {
    var kw := Keyword(st);
    var s := kw + [gap] + FailText;
    assert s[0..|kw|] == kw;
    assert s[|kw| + 1..|kw| + 1 + |FailText|] == FailText;
    assert s[0..|kw| + 1] == kw + [gap];
    assert StageMatch(s, st, 0, |kw| + 1);
  }

  /** What `get_document` hands back: the body and an error message, empty on success. */
  datatype Download = Download(body: string, error: string)

  /** What `modify_nodes` writes into a failure cell: the anchor's text and an optional style. */
  datatype Mark = Mark(text: string, style: Option<string>)

  /**
   `modify_nodes` after the download: a reported error leaves the cell alone;
   otherwise the cell shows the classification's label and gets its style.
   */
  function Annotate(d: Download): (m: Option<Mark>)
    ensures m.None? <==> d.error != []
    ensures m.Some? ==> m.value.text == LabelText(Classify(d.body)) && m.value.style == StyleOf(Classify(d.body))
  {
    if d.error != [] then None
    else
      var l := Classify(d.body);
      Some(Mark(LabelText(l), StyleOf(l)))
  }

  /** Distinct labels are written as distinct texts, so the cell text identifies the label. */
  lemma LabelTextInjective(l1: Label, l2: Label)
    requires LabelText(l1) == LabelText(l2)
    ensures l1 == l2
  {
  }
}

=== FILE: decimal.dfy ===
/** Decimal digit strings: how reply codes are written and read back. */
module Decimal {

  predicate IsDigit(c: char)
  {
    '0' <= c <= '9'
  }

  /** Every character of `s` is a decimal digit. */
  predicate AllDigits(s: string)
  {
    forall k :: 0 <= k < |s| ==> IsDigit(s[k])
  }

  function DigitChar(d: nat): (c: char)
    requires d < 10
  {
    ('0' as int + d) as char
  }

  function DigitValue(c: char): nat
    requires IsDigit(c)
  {
    c as int - '0' as int
  }

  /** The decimal representation of `n`, most significant digit first, without leading zeros. */
  function Show(n: nat): (s: string)
    ensures |s| >= 1 && AllDigits(s)
    ensures |s| > 1 ==> s[0] != '0'
    decreases n
  {
    if n < 10 then [DigitChar(n)] else Show(n / 10) + [DigitChar(n % 10)]
  }

  /** The number a digit string denotes. */
  function Value(s: string): nat
    requires AllDigits(s)
    decreases |s|
  {
    if |s| == 0 then 0 else 10 * Value(s[..|s| - 1]) + DigitValue(s[|s| - 1])
  }

  /** Reading back a written number gives the number. */
  lemma {:induction false} ValueOfShow(n: nat)
    ensures Value(Show(n)) == n
    decreases n
  {
    var s := Show(n);
    if n >= 10 {
      ValueOfShow(n / 10);
      assert s[..|s| - 1] == Show(n / 10);
    }
  }

  /** Length of the longest all-digit prefix of `s`. */
  function DigitRun(s: string): (n: nat)
    ensures n <= |s| && AllDigits(s[..n])
    ensures n < |s| ==> !IsDigit(s[n])
    decreases |s|
  {
    if |s| == 0 || !IsDigit(s[0]) then 0 else 1 + DigitRun(s[1..])
  }

  /** The digit run of digits followed by a non-digit is exactly those digits. */
  lemma {:induction false} DigitRunOfDigits(s: string, tail: string)
    requires AllDigits(s)
    requires tail == [] || !IsDigit(tail[0])
    ensures DigitRun(s + tail) == |s|
    decreases |s|
  {
    if |s| > 0 {
      assert (s + tail)[1..] == s[1..] + tail;
      DigitRunOfDigits(s[1..], tail);
    } else {
      assert s + tail == tail;
    }
  }
}

=== FILE: links.dfy ===
/**
 The part of `process_node` that handles one failure cell: picking the cell's
 log link, turning a relative link into a global URL under the branch's test
 results, and annotating the cell from the downloaded log.
 */
module Links {
  import opened Wrappers
  import opened Text
  import opened Classifier

  const TestsUrl: string := "http://www.boost.org/development/tests/"
  const Branch: string := "develop"
  /** The base every relative failure link is resolved against. */
  const BranchUrl: string := TestsUrl + Branch + "/"
  /** A link holding this text anywhere counts as already global. */
  const AbsoluteMarker: string := "http://"
  /** The `class` of a cell reporting a new unexpected failure. */
  const FailCellClass: string := "library-fail-unexpected-new"

  predicate IsSlash(c: char)
  {
    c == '/'
  }

  /** The branch URL starts with the absolute marker. */
  lemma BranchUrlIsAbsolute(rest: string)
    ensures Occurs(AbsoluteMarker, BranchUrl + rest, 0)
  {
    assert TestsUrl[..|AbsoluteMarker|] == AbsoluteMarker;
    assert BranchUrl[..|AbsoluteMarker|] == TestsUrl[..|AbsoluteMarker|];
    assert (BranchUrl + rest)[..|AbsoluteMarker|] == BranchUrl[..|AbsoluteMarker|];
  }

  /**
   The URL a failure link is fetched from. A link mentioning "http://" is kept
   as it is; any other link loses its leading slashes and is appended to the
   branch URL.
   */
  function Globalize(href: string): (r: string)
    ensures HasSubstring(href, AbsoluteMarker) ==> r == href
    ensures !HasSubstring(href, AbsoluteMarker) ==>
      && |BranchUrl| <= |r| && r[..|BranchUrl|] == BranchUrl
      && (|r| == |BranchUrl| || r[|BranchUrl|] != '/')
      && |r| - |BranchUrl| <= |href|
      && r[|BranchUrl|..] == href[|href| - (|r| - |BranchUrl|)..]
      && forall k :: 0 <= k < |href| - (|r| - |BranchUrl|) ==> href[k] == '/'
    ensures HasSubstring(r, AbsoluteMarker)
    ensures r != []
  {
    if Contains(href, AbsoluteMarker) then href
    else
      var rest := DropLeading(href, IsSlash);
      BranchUrlIsAbsolute(rest);
      BranchUrl + rest
  }

  /** Globalizing a global URL changes nothing, so the rewrite can be applied again safely. */
  lemma GlobalizeIdempotent(href: string)
    ensures Globalize(Globalize(href)) == Globalize(href)
  {
  }

  /** A relative link and the same link with extra leading slashes resolve to the same URL. */
  lemma {:induction false} LeadingSlashesIgnored(href: string)
    requires !HasSubstring(href, AbsoluteMarker)
    ensures Globalize("/" + href) == Globalize(href)
  {
    if HasSubstring("/" + href, AbsoluteMarker) {
      var i :| Occurs(AbsoluteMarker, "/" + href, i);
      assert ("/" + href)[i..i + |AbsoluteMarker|][0] == ("/" + href)[i];
      assert i > 0;
      OccursInSuffix(AbsoluteMarker, "/" + href, 1, i - 1);
      assert false;
    }
    assert ("/" + href)[1..] == href;
  }

  /** The anchor inside a cell, with its `href` attribute if present. */
  datatype Anchor = Anchor(href: Option<string>)

  /** A table cell: its element name, its `class` attribute, and its first `a` child. */
  datatype Cell = Cell(tag: string, classAttr: Option<string>, anchor: Option<Anchor>)

  /** The log link of a failure cell, or `None` for every other node. */
  function FailHref(c: Cell): Option<string>
  {
    if c.tag == "td" && c.classAttr == Some(FailCellClass) && c.anchor.Some? then c.anchor.value.href
    else None
  }

  /** What processing a failure cell produces: the link written back and the annotation. */
  datatype CellUpdate = CellUpdate(href: string, mark: Option<Mark>)

  /**
   One failure cell of `process_node`: only a cell with the failure class and
   a linked anchor is touched; the link written back is the cell's link made
   global; the log read is the one at that URL; a link that is already global
   is kept.
   */
  function ProcessCell(c: Cell, fetch: string -> Download): (u: Option<CellUpdate>)
    ensures u.Some? <==> c.tag == "td" && c.classAttr == Some(FailCellClass)
                         && c.anchor.Some? && c.anchor.value.href.Some?
    ensures u.Some? ==> u.value.href == Globalize(c.anchor.value.href.value)
    ensures u.Some? ==> HasSubstring(u.value.href, AbsoluteMarker)
    ensures u.Some? ==> u.value.mark == Annotate(fetch(u.value.href))
    ensures u.Some? && HasSubstring(c.anchor.value.href.value, AbsoluteMarker) ==>
      u.value.href == c.anchor.value.href.value
  {
    match FailHref(c)
    case None => None
    case Some(href) =>
      var url := Globalize(href);
      Some(CellUpdate(url, Annotate(fetch(url))))
  }

  /** The cell as written back: the anchor's link replaced by `href`. */
  function WithHref(c: Cell, href: string): Cell
    requires c.anchor.Some?
  {
    c.(anchor := Some(Anchor(Some(href))))
  }

  /**
   Processing a cell that was already processed changes nothing: its link is
   global, so it is written back as it is and the same log is read.
   */
  lemma ProcessCellStable(c: Cell, fetch: string -> Download)
    requires ProcessCell(c, fetch).Some?
    ensures ProcessCell(WithHref(c, ProcessCell(c, fetch).value.href), fetch) == ProcessCell(c, fetch)
  {
    GlobalizeIdempotent(c.anchor.value.href.value);
  }
}

=== FILE: mail_config.dfy ===
/**
 The mail configuration read by `mail::config`: the SMTP host on the first
 line, the service (port) on the second, and one recipient per remaining
 non-empty line. The file is given as the lines `std::getline` reads from it,
 in order; a file that cannot be opened reads as no lines at all.
 */
module MailConfig {
  import opened Wrappers

  datatype Config = Config(host: string, service: string, recipients: seq<string>)

  /** The message of the error thrown for an unusable configuration. */
  const LoadError: string := "couldn't load config"

  /** The non-empty lines, in their original order. */
  function NonEmptyLines(ls: seq<string>): (r: seq<string>)
    ensures |r| <= |ls|
    ensures forall k :: 0 <= k < |r| ==> r[k] != []
    ensures r == [] <==> forall k :: 0 <= k < |ls| ==> ls[k] == []
    decreases |ls|
  {
    if |ls| == 0 then []
    else if ls[0] == [] then NonEmptyLines(ls[1..])
    else [ls[0]] + NonEmptyLines(ls[1..])
  }

  /** Dropping empty lines commutes with concatenation, so the relative order of recipients is kept. */
  lemma {:induction false} NonEmptyLinesAppend(a: seq<string>, b: seq<string>)
    ensures NonEmptyLines(a + b) == NonEmptyLines(a) + NonEmptyLines(b)
    decreases |a|
  {
    if |a| == 0 {
      assert a + b == b;
    } else {
      assert (a + b)[1..] == a[1..] + b;
      NonEmptyLinesAppend(a[1..], b);
    }
  }

  /** Lines that are all non-empty are kept as they are. */
  lemma {:induction false} NonEmptyLinesKeepsNonEmpty(ls: seq<string>)
    requires forall k :: 0 <= k < |ls| ==> ls[k] != []
    ensures NonEmptyLines(ls) == ls
    decreases |ls|
  {
    if |ls| > 0 {
      NonEmptyLinesKeepsNonEmpty(ls[1..]);
    }
  }

  /**
   `mail::config`: host and service are the first two lines (empty when
   missing); the recipients are the later non-empty lines. Loading fails
   exactly when the host, the service or the recipient list is empty.
   */
  function ParseConfig(lines: seq<string>): (r: Result<Config, string>)
    ensures r.Success? <==>
      && 2 <= |lines| && lines[0] != [] && lines[1] != []
      && exists k :: 2 <= k < |lines| && lines[k] != []
    ensures r.Success? ==>
      && r.value.host == lines[0] && r.value.service == lines[1]
      && r.value.recipients == NonEmptyLines(lines[2..])
    ensures r.Failure? ==> r.error == LoadError
  {
    var host := if |lines| > 0 then lines[0] else [];
    var service := if |lines| > 1 then lines[1] else [];
    var recipients := if |lines| > 2 then NonEmptyLines(lines[2..]) else [];
    assert |lines| > 2 ==> forall k :: 2 <= k < |lines| ==> lines[k] == lines[2..][k - 2];
    if host == [] || service == [] || recipients == [] then Failure(LoadError)
    else Success(Config(host, service, recipients))
  }

  /** The configuration file laid out line by line, as the parser expects it. */
  function Render(c: Config): seq<string>
  {
    [c.host, c.service] + c.recipients
  }

  /**
   A complete configuration written out and read back is the same
   configuration, whether or not the file ends with a line break (which
   leaves one empty last line).
   */
  lemma ParseRender(c: Config)
    requires c.host != [] && c.service != [] && |c.recipients| > 0
    requires forall k :: 0 <= k < |c.recipients| ==> c.recipients[k] != []
    ensures ParseConfig(Render(c)) == Success(c)
    ensures ParseConfig(Render(c) + [[]]) == Success(c)
  {
    var ls := Render(c);
    assert ls[2..] == c.recipients;
    NonEmptyLinesKeepsNonEmpty(c.recipients);
    assert (ls + [[]])[2..] == c.recipients + [[]];
    NonEmptyLinesAppend(c.recipients, [[]]);
    assert NonEmptyLines([[]]) == [];
    assert (ls + [[]])[0] == c.host && (ls + [[]])[1] == c.service;
    assert NonEmptyLines((ls + [[]])[2..]) == c.recipients;
  }
}

=== FILE: smtp.dfy ===
/**
 The SMTP client dialogue of `mail::send` with the transport stripped away:
 the steps it performs (requests written, replies expected), the message it
 transmits after DATA, how a server reply is checked, and what a whole
 conversation against a sequence of server replies amounts to.
 */
module Smtp {
  import opened Wrappers
  import opened Text
  import opened Decimal

  const Crlf: string := "\r\n"
  /** The end-of-data indication of section 4.1.1.4 of RFC 5321. */
  const EndOfData: string := "\r\n.\r\n"
  /** The fixed envelope and header sender. */
  const Sender: string := "geometry-regression@boost.org"
  const UintMax: nat := 0xFFFF_FFFF

  /** A reply code as `expect_response` receives it: an `unsigned`. */
  type ReplyCode = c: nat | c <= UintMax

  const Hello: string := "HELO"
  const MailFrom: string := "MAIL FROM:<" + Sender + ">"
  const DataCommand: string := "DATA"
  const QuitCommand: string := "QUIT"

  function RcptTo(recipient: string): string
  {
    "RCPT TO:<" + recipient + ">"
  }

  /** `send_request` with its default terminator: the request followed by CRLF. */
  function Request(req: string): string
  {
    req + Crlf
  }

  /** `send_data`: the message followed by the end-of-data marker; no dot-stuffing. */
  function DataBlock(data: string): string
  {
    data + EndOfData
  }

  // ---------------------------------------------------------------------------
  // The message

  /** The recipients separated by ", ". */
  function Join(rs: seq<string>): string
    decreases |rs|
  {
    if |rs| == 0 then []
    else if |rs| == 1 then rs[0]
    else rs[0] + ", " + Join(rs[1..])
  }

  /** The `To:` field: CRLF-terminated only when there is at least one recipient. */
  function ToField(rs: seq<string>): (t: string)
  {
    "To: " + (if |rs| == 0 then [] else Join(rs) + Crlf)
  }

  /** The header block: From, To and Subject fields. */
  function Header(rs: seq<string>, subject: string): string
  {
    "From: " + Sender + Crlf + ToField(rs) + "Subject: " + subject + Crlf
  }

  /**
   The text sent after DATA: the header block, an empty line, then the message
   exactly as given.
   */
  function Payload(rs: seq<string>, subject: string, message: string): string
  {
    Header(rs, subject) + Crlf + message
  }

  /** The To field's addresses read back: the pieces between ", " separators. */
  function SplitAddresses(s: string): seq<string>
    decreases |s|
  {
    match FindFrom(s, ", ", 0)
    case None => [s]
    case Some(i) => [s[..i]] + SplitAddresses(s[i + 2..])
  }

  /** No address holds a comma, as plain mailbox addresses do not. */
  predicate CommaFree(rs: seq<string>)
  {
    forall k, m :: 0 <= k < |rs| && 0 <= m < |rs[k]| ==> rs[k][m] != ','
  }

  /** The first ", " after a comma-free address is the one right after it. */
  lemma FirstSeparator(r: string, rest: string)
    requires forall m :: 0 <= m < |r| ==> r[m] != ','
    ensures FindFrom(r + ", " + rest, ", ", 0) == Some(|r|)
  {
    var s := r + ", " + rest;
    assert s[|r|..|r| + 2] == ", ";
    assert Occurs(", ", s, |r|);
    forall k | 0 <= k < |r|
      ensures !Occurs(", ", s, k)
    {
      assert s[k] == r[k];
      if k + 2 <= |s| {
        assert s[k..k + 2][0] == s[k];
      }
    }
  }

  /** A comma-free address holds no ", ". */
  lemma NoSeparatorIn(r: string)
    requires forall m :: 0 <= m < |r| ==> r[m] != ','
    ensures FindFrom(r, ", ", 0).None?
  {
    forall k | 0 <= k
      ensures !Occurs(", ", r, k)
    {
      if k + 2 <= |r| {
        assert r[k..k + 2][0] == r[k];
      }
    }
  }

  /** The To field lists exactly the recipients, in order. */
  lemma {:induction false} SplitJoin(rs: seq<string>)
    requires |rs| > 0 && CommaFree(rs)
    ensures SplitAddresses(Join(rs)) == rs
    decreases |rs|
  {
    if |rs| == 1 {
      NoSeparatorIn(rs[0]);
    } else {
      var r := rs[0];
      assert forall m :: 0 <= m < |r| ==> r[m] == rs[0][m];
      var s := r + ", " + Join(rs[1..]);
      FirstSeparator(r, Join(rs[1..]));
      assert s[..|r|] == r;
      assert s[|r| + 2..] == Join(rs[1..]);
      assert CommaFree(rs[1..]) by {
        forall k, m | 0 <= k < |rs[1..]| && 0 <= m < |rs[1..][k]|
          ensures rs[1..][k][m] != ','
        {
          assert rs[1..][k] == rs[k + 1];
        }
      }
      SplitJoin(rs[1..]);
    }
  }

  /**
   The To field reads back as the recipients in order: "To: ", the addresses
   separated by ", ", then CRLF.
   */
  lemma ToFieldReadsBack(rs: seq<string>)
    requires |rs| > 0 && CommaFree(rs)
    ensures var t := ToField(rs);
      && |t| >= 6 && t[..4] == "To: " && t[|t| - 2..] == Crlf
      && SplitAddresses(t[4..|t| - 2]) == rs
  {
    var t := ToField(rs);
    assert t == "To: " + Join(rs) + Crlf;
    assert t[4..|t| - 2] == Join(rs);
    SplitJoin(rs);
  }

  /** With no recipients the To field is left open and runs into the Subject field. */
  lemma NoRecipientsMergesFields(subject: string)
    ensures Header([], subject) == "From: " + Sender + Crlf + "To: Subject: " + subject + Crlf
  {
  }

  /** The empty line that ends a header block (section 2.1 of RFC 5322). */
  const BlankLine: string := "\r\n\r\n"

  /** `s` holds neither a carriage return nor a line feed. */
  predicate NoBreaks(s: string)
  {
    forall k :: 0 <= k < |s| ==> s[k] != '\r' && s[k] != '\n'
  }

  lemma NoBreaksConcat(a: string, b: string)
    requires NoBreaks(a) && NoBreaks(b)
    ensures NoBreaks(a + b)
  {
    forall k | |a| <= k < |a + b|
      ensures (a + b)[k] != '\r' && (a + b)[k] != '\n'
    {
      assert (a + b)[k] == b[k - |a|];
    }
  }

  /** Addresses without line breaks give a To list without line breaks. */
  lemma {:induction false} NoBreaksJoin(rs: seq<string>)
    requires forall k :: 0 <= k < |rs| ==> NoBreaks(rs[k])
    ensures NoBreaks(Join(rs))
    decreases |rs|
  {
    if |rs| > 1 {
      NoBreaksJoin(rs[1..]);
      FixedTextsNoBreaks();
      NoBreaksConcat(rs[0], ", ");
      NoBreaksConcat(rs[0] + ", ", Join(rs[1..]));
    }
  }

  /** The fixed parts of the header hold no line break. */
  lemma FixedTextsNoBreaks()
    ensures NoBreaks("From: " + Sender) && NoBreaks("To: ") && NoBreaks("Subject: ") && NoBreaks(", ")
  {
  }

  /** `p` occurs in `s` at `n` and nowhere before. */
  ghost predicate FirstAt(s: string, p: string, n: nat)
  {
    Occurs(p, s, n) && forall k :: 0 <= k < n ==> !Occurs(p, s, k)
  }

  /** The search finds the first occurrence. */
  lemma FindsFirst(s: string, p: string, n: nat)
    requires FirstAt(s, p, n)
    ensures FindFrom(s, p, 0) == Some(n)
  {
  }

  /** A line without breaks, then CRLF, then `r`: the first blank line is the first one in `r`. */
  lemma FirstBlankAfterLine(l: string, r: string, n: nat)
    requires NoBreaks(l) && |r| > 0 && r[0] != '\r'
    requires FirstAt(r, BlankLine, n)
    ensures FirstAt(l + Crlf + r, BlankLine, n + |l| + 2)
  {
    var s := l + Crlf + r;
    var d := |l| + 2;
    assert s[d..] == r;
    OccursInSuffix(BlankLine, s, d, n);
    forall k | 0 <= k < n + d
      ensures !Occurs(BlankLine, s, k)
    {
      if k + 4 <= |s| {
        if k < |l| {
          assert s[k..k + 4][0] == s[k] == l[k];
        } else if k == |l| {
          assert s[k..k + 4][2] == r[0];
        } else if k == |l| + 1 {
          assert s[k..k + 4][0] == s[k] == '\n';
        } else {
          OccursInSuffix(BlankLine, s, d, k - d);
        }
      }
    }
  }

  /** A line without breaks, then CRLF CRLF: the blank line is right after the line. */
  lemma FirstBlankEndsLine(l: string, rest: string)
    requires NoBreaks(l)
    ensures FirstAt(l + BlankLine + rest, BlankLine, |l|)
  {
    var s := l + BlankLine + rest;
    OccursBetween(l, BlankLine, rest);
    forall k | 0 <= k < |l|
      ensures !Occurs(BlankLine, s, k)
    {
      if k + 4 <= |s| {
        assert s[k..k + 4][0] == s[k] == l[k];
      }
    }
  }

  /** With no recipients the header has two lines, the second running the To and Subject fields together. */
  lemma FirstBlankNoRecipients(subject: string, message: string)
    requires NoBreaks(subject)
    ensures FirstAt(Payload([], subject, message), BlankLine, |Header([], subject)| - 2)
  {
    var from := "From: " + Sender;
    var to := "To: " + ("Subject: " + subject);
    FixedTextsNoBreaks();
    NoBreaksConcat("Subject: ", subject);
    NoBreaksConcat("To: ", "Subject: " + subject);
    FirstBlankEndsLine(to, message);
    assert Payload([], subject, message) == from + Crlf + (to + BlankLine + message);
    FirstBlankAfterLine(from, to + BlankLine + message, |to|);
  }

  /** The payload with recipients, line by line. */
  lemma PayloadLines(rs: seq<string>, subject: string, message: string)
    requires |rs| > 0
    ensures Payload(rs, subject, message) ==
      ("From: " + Sender) + Crlf + (("To: " + Join(rs)) + Crlf + (("Subject: " + subject) + BlankLine + message))
  {
    BlankLineIsTwoBreaks();
    assert ToField(rs) == "To: " + (Join(rs) + Crlf);
    Regroup("From: " + Sender, Crlf, "To: ", Join(rs), "Subject: ", subject, message, BlankLine);
  }

  lemma BlankLineIsTwoBreaks()
    ensures BlankLine == Crlf + Crlf
  {
  }

  /** The regrouping behind `PayloadLines`, on sequences left abstract. */
  lemma Regroup<T>(f: seq<T>, n: seq<T>, t: seq<T>, j: seq<T>, s: seq<T>, subj: seq<T>, m: seq<T>, bl: seq<T>)
    requires bl == n + n
    ensures f + n + (t + (j + n)) + s + subj + n + n + m == f + n + ((t + j) + n + ((s + subj) + bl + m))
  {
  }

  /** With recipients the header has three lines: From, To and Subject. */
  lemma FirstBlankWithRecipients(rs: seq<string>, subject: string, message: string)
    requires |rs| > 0 && NoBreaks(subject)
    requires forall k :: 0 <= k < |rs| ==> NoBreaks(rs[k])
    ensures FirstAt(Payload(rs, subject, message), BlankLine, |Header(rs, subject)| - 2)
  {
    var from := "From: " + Sender;
    var to := "To: " + Join(rs);
    var last := "Subject: " + subject;
    var tail := last + BlankLine + message;
    FixedTextsNoBreaks();
    NoBreaksConcat("Subject: ", subject);
    FirstBlankEndsLine(last, message);
    NoBreaksJoin(rs);
    NoBreaksConcat("To: ", Join(rs));
    FirstBlankAfterLine(to, tail, |last|);
    PayloadLines(rs, subject, message);
    FirstBlankAfterLine(from, to + Crlf + tail, |last| + |to| + 2);
  }

  /**
   A receiver splits the message at its first empty line: when no recipient
   and not the subject holds a line break, that line is the one right after
   the header block, and what follows it is the message exactly.
   */
  lemma PayloadSplitsAtBlankLine(rs: seq<string>, subject: string, message: string)
    requires NoBreaks(subject)
    requires forall k :: 0 <= k < |rs| ==> NoBreaks(rs[k])
    ensures var p := Payload(rs, subject, message);
      var n := |Header(rs, subject)| - 2;
      && FindFrom(p, BlankLine, 0) == Some(n)
      && p[n + |BlankLine|..] == message
  {
    var p := Payload(rs, subject, message);
    if |rs| == 0 {
      FirstBlankNoRecipients(subject, message);
    } else {
      FirstBlankWithRecipients(rs, subject, message);
    }
    FindsFirst(p, BlankLine, |Header(rs, subject)| - 2);
  }

  /**
   Nothing in the header is escaped: a subject holding an empty line ends the
   header block early, and the rest of the subject reads as message text.
   */
  lemma BlankLineInSubjectEndsHeaderEarly(rs: seq<string>, before: string, after: string, message: string)
    ensures var subject := before + BlankLine + after;
      exists k :: k < |Header(rs, subject)| - 2 && Occurs(BlankLine, Payload(rs, subject, message), k)
  {
    var subject := before + BlankLine + after;
    var a := "From: " + Sender + Crlf + ToField(rs) + "Subject: " + before;
    var b := after + Crlf + Crlf + message;
    assert Payload(rs, subject, message) == a + BlankLine + b;
    OccursBetween(a, BlankLine, b);
    assert |Header(rs, subject)| == |a| + |BlankLine| + |after| + 2;
  }

  // ---------------------------------------------------------------------------
  // The dialogue

  /** One step of the client: write text to the server, or read a reply and check its code. */
  datatype Step = Send(wire: string) | Expect(code: ReplyCode)

  /** A request followed by the reading of its reply. */
  function Exchange(wire: string, code: ReplyCode): seq<Step>
  {
    [Send(wire), Expect(code)]
  }

  /** One RCPT exchange per recipient, in input order, each expecting 250. */
  function RecipientSteps(rs: seq<string>): (d: seq<Step>)
    ensures |d| == 2 * |rs|
    decreases |rs|
  {
    if |rs| == 0 then [] else Exchange(Request(RcptTo(rs[0])), 250) + RecipientSteps(rs[1..])
  }

  /** DATA, the message, and QUIT, each with the reply it expects. */
  function Closing(payload: string): seq<Step>
  {
    Exchange(Request(DataCommand), 354) + Exchange(DataBlock(payload), 250) + Exchange(Request(QuitCommand), 221)
  }

  /** Everything after the greeting, for a dialogue that sends `payload` after DATA. */
  function Exchanges(rs: seq<string>, payload: string): seq<Step>
  {
    Exchange(Request(Hello), 250) + Exchange(Request(MailFrom), 250) + RecipientSteps(rs) + Closing(payload)
  }

  /** Every step of `mail::send` once connected, in order: read the greeting, then the exchanges. */
  function Dialogue(rs: seq<string>, subject: string, message: string): (d: seq<Step>)
    ensures |d| == 2 * |rs| + 11
  {
    [Expect(220)] + Exchanges(rs, Payload(rs, subject, message))
  }

  /** Requests at even positions, reply checks at odd ones. */
  ghost predicate SendsAtEven(d: seq<Step>)
  {
    forall k :: 0 <= k < |d| ==> (d[k].Send? <==> k % 2 == 0)
  }

  lemma SendsAtEvenAppend(a: seq<Step>, b: seq<Step>)
    requires SendsAtEven(a) && |a| % 2 == 0 && SendsAtEven(b)
    ensures SendsAtEven(a + b)
  {
    forall k | |a| <= k < |a + b|
      ensures (a + b)[k].Send? <==> k % 2 == 0
    {
      assert (a + b)[k] == b[k - |a|];
      assert (k - |a|) % 2 == k % 2;
    }
  }

  lemma {:induction false} RecipientStepsAlternate(rs: seq<string>)
    ensures SendsAtEven(RecipientSteps(rs))
    decreases |rs|
  {
    if |rs| > 0 {
      RecipientStepsAlternate(rs[1..]);
      SendsAtEvenAppend(Exchange(Request(RcptTo(rs[0])), 250), RecipientSteps(rs[1..]));
    }
  }

  lemma ExchangesAlternate(rs: seq<string>, payload: string)
    ensures SendsAtEven(Exchanges(rs, payload))
  {
    var helo := Exchange(Request(Hello), 250);
    var mail := Exchange(Request(MailFrom), 250);
    var data := Exchange(Request(DataCommand), 354);
    var body := Exchange(DataBlock(payload), 250);
    var quit := Exchange(Request(QuitCommand), 221);
    RecipientStepsAlternate(rs);
    SendsAtEvenAppend(data, body);
    SendsAtEvenAppend(data + body, quit);
    SendsAtEvenAppend(helo, mail);
    SendsAtEvenAppend(helo + mail, RecipientSteps(rs));
    SendsAtEvenAppend(helo + mail + RecipientSteps(rs), Closing(payload));
  }

  /**
   The client and the server take turns: the dialogue opens by reading the
   greeting, and every request is followed by reading its reply.
   */
  lemma DialogueAlternates(rs: seq<string>, subject: string, message: string)
    ensures forall k :: 0 <= k < |Dialogue(rs, subject, message)| ==>
      (Dialogue(rs, subject, message)[k].Expect? <==> k % 2 == 0)
  {
    var x := Exchanges(rs, Payload(rs, subject, message));
    var d := Dialogue(rs, subject, message);
    ExchangesAlternate(rs, Payload(rs, subject, message));
    forall k | 0 < k < |d|
      ensures d[k].Expect? <==> k % 2 == 0
    {
      assert d[k] == x[k - 1];
    }
  }

  /** The reply codes the client checks, in order. */
  function Codes(steps: seq<Step>): seq<ReplyCode>
    decreases |steps|
  {
    if |steps| == 0 then []
    else (if steps[0].Expect? then [steps[0].code] else []) + Codes(steps[1..])
  }

  /** The texts the client writes, in order. */
  function Commands(steps: seq<Step>): seq<string>
    decreases |steps|
  {
    if |steps| == 0 then []
    else (if steps[0].Send? then [steps[0].wire] else []) + Commands(steps[1..])
  }

  /** Everything the client writes, as one stream. */
  function Wire(steps: seq<Step>): string
    decreases |steps|
  {
    if |steps| == 0 then []
    else (if steps[0].Send? then steps[0].wire else []) + Wire(steps[1..])
  }

  lemma {:induction false} CodesAppend(a: seq<Step>, b: seq<Step>)
    ensures Codes(a + b) == Codes(a) + Codes(b)
    decreases |a|
  {
    if |a| > 0 {
      assert (a + b)[1..] == a[1..] + b;
      CodesAppend(a[1..], b);
    } else {
      assert a + b == b;
    }
  }

  lemma {:induction false} CommandsAppend(a: seq<Step>, b: seq<Step>)
    ensures Commands(a + b) == Commands(a) + Commands(b)
    decreases |a|
  {
    if |a| > 0 {
      assert (a + b)[1..] == a[1..] + b;
      CommandsAppend(a[1..], b);
    } else {
      assert a + b == b;
    }
  }

  /** An exchange writes its request and checks its code. */
  lemma ExchangeViews(wire: string, code: ReplyCode)
    ensures Codes(Exchange(wire, code)) == [code]
    ensures Commands(Exchange(wire, code)) == [wire]
  {
    var x := Exchange(wire, code);
    assert x[1..] == [Expect(code)];
    assert x[1..][1..] == [];
    assert Codes(x[1..]) == [code];
    assert Commands(x[1..]) == [];
  }

  /** Both views of a concatenation of exchanges. */
  lemma ViewsAppend(a: seq<Step>, b: seq<Step>)
    ensures Codes(a + b) == Codes(a) + Codes(b)
    ensures Commands(a + b) == Commands(a) + Commands(b)
  {
    CodesAppend(a, b);
    CommandsAppend(a, b);
  }

  /** Every recipient is answered with 250, and is named in its own RCPT request. */
  lemma {:induction false} RecipientViews(rs: seq<string>)
    ensures Codes(RecipientSteps(rs)) == seq(|rs|, _ => 250)
    ensures Commands(RecipientSteps(rs)) == seq(|rs|, k requires 0 <= k < |rs| => Request(RcptTo(rs[k])))
    decreases |rs|
  {
    if |rs| > 0 {
      var head := Exchange(Request(RcptTo(rs[0])), 250);
      ViewsAppend(head, RecipientSteps(rs[1..]));
      ExchangeViews(Request(RcptTo(rs[0])), 250);
      RecipientViews(rs[1..]);
    }
  }

  /** DATA expects 354, the message and QUIT expect 250 and 221. */
  lemma ClosingViews(payload: string)
    ensures Codes(Closing(payload)) == [354, 250, 221]
    ensures Commands(Closing(payload)) == [Request(DataCommand), DataBlock(payload), Request(QuitCommand)]
  {
    var data := Exchange(Request(DataCommand), 354);
    var body := Exchange(DataBlock(payload), 250);
    var quit := Exchange(Request(QuitCommand), 221);
    ExchangeViews(Request(DataCommand), 354);
    ExchangeViews(DataBlock(payload), 250);
    ExchangeViews(Request(QuitCommand), 221);
    ViewsAppend(data, body);
    ViewsAppend(data + body, quit);
  }

  lemma ExchangesViews(rs: seq<string>, payload: string)
    ensures Codes(Exchanges(rs, payload)) == [250, 250] + seq(|rs|, _ => 250) + [354, 250, 221]
    ensures Commands(Exchanges(rs, payload)) ==
      [Request(Hello), Request(MailFrom)]
      + seq(|rs|, k requires 0 <= k < |rs| => Request(RcptTo(rs[k])))
      + [Request(DataCommand), DataBlock(payload), Request(QuitCommand)]
  {
    var helo := Exchange(Request(Hello), 250);
    var mail := Exchange(Request(MailFrom), 250);
    ExchangeViews(Request(Hello), 250);
    ExchangeViews(Request(MailFrom), 250);
    RecipientViews(rs);
    ClosingViews(payload);
    ViewsAppend(helo, mail);
    ViewsAppend(helo + mail, RecipientSteps(rs));
    ViewsAppend(helo + mail + RecipientSteps(rs), Closing(payload));
  }

  /**
   The replies checked are 220, 250 (HELO), 250 (MAIL), 250 per recipient,
   354 (DATA), 250 (message) and 221 (QUIT): n + 6 checks for n recipients.
   */
  lemma DialogueCodes(rs: seq<string>, subject: string, message: string)
    ensures Codes(Dialogue(rs, subject, message)) == [220, 250, 250] + seq(|rs|, _ => 250) + [354, 250, 221]
    ensures |Codes(Dialogue(rs, subject, message))| == |rs| + 6
  {
    var x := Exchanges(rs, Payload(rs, subject, message));
    ExchangesViews(rs, Payload(rs, subject, message));
    CodesAppend([Expect(220)], x);
    assert Codes([Expect(220)]) == [220] by {
      assert [Expect(220)][1..] == [];
    }
  }

  /**
   The client writes HELO, MAIL FROM, one RCPT TO per recipient in order, DATA,
   the header block, a blank line and the message followed by the end-of-data
   marker, and QUIT; every request ends in CRLF.
   */
  lemma DialogueCommands(rs: seq<string>, subject: string, message: string)
    ensures Commands(Dialogue(rs, subject, message)) ==
      [Hello + Crlf, MailFrom + Crlf]
      + seq(|rs|, k requires 0 <= k < |rs| => "RCPT TO:<" + rs[k] + ">" + Crlf)
      + [DataCommand + Crlf, Header(rs, subject) + Crlf + message + EndOfData, QuitCommand + Crlf]
  {
    var x := Exchanges(rs, Payload(rs, subject, message));
    ExchangesViews(rs, Payload(rs, subject, message));
    CommandsAppend([Expect(220)], x);
    assert Commands([Expect(220)]) == [] by {
      assert [Expect(220)][1..] == [];
    }
  }

  /**
   No dot-stuffing: a message holding CRLF "." CRLF puts the end-of-data
   marker on the wire before the real end of the data.
   */
  lemma UnstuffedMarkerEndsDataEarly(rs: seq<string>, subject: string, before: string, after: string)
    ensures var w := DataBlock(Payload(rs, subject, before + EndOfData + after));
      exists k :: k + |EndOfData| < |w| && Occurs(EndOfData, w, k)
  {
    var h := Header(rs, subject) + Crlf;
    var w := DataBlock(Payload(rs, subject, before + EndOfData + after));
    assert w == (h + before) + EndOfData + (after + EndOfData);
    OccursBetween(h + before, EndOfData, after + EndOfData);
  }

  // ---------------------------------------------------------------------------
  // Replies

  /** The characters the stream's `>>` skips before a number (`isspace` in the classic locale). */
  predicate IsSpace(c: char)
  {
    c == ' ' || c == '\t' || c == '\n' || c == '\U{B}' || c == '\U{C}' || c == '\r'
  }

  /**
   What `response_stream >> response_code` leaves: the stored value, whether
   the stream is still good, and the unread text.
   */
  datatype Extraction = Extraction(code: ReplyCode, ok: bool, rest: string)

  /**
   `reply` reads as white space `w`, then the digits `ds`, then `rest`, which
   does not continue the number.
   */
  ghost predicate NumberAt(reply: string, w: string, ds: string, rest: string)
  {
    && reply == w + ds + rest
    && (forall k :: 0 <= k < |w| ==> IsSpace(w[k]))
    && |ds| > 0 && AllDigits(ds)
    && (rest == [] || !IsDigit(rest[0]))
  }

  /** The first character after the leading white space, if any, is not a digit. */
  ghost predicate NoNumber(reply: string)
  {
    forall k :: 0 <= k < |reply| && (forall m :: 0 <= m < k ==> IsSpace(reply[m])) ==> !IsDigit(reply[k])
  }

  /**
   Reading an `unsigned` from the start of a reply: leading white space is
   skipped and the longest run of digits read. No digits stores 0 and an
   out-of-range value stores the largest `unsigned`, both failing the stream.
   */
  function ExtractCode(reply: string): (x: Extraction)
    ensures !x.ok ==> x.code == 0 || x.code == UintMax
    ensures x.ok ==> x.rest == [] || !IsDigit(x.rest[0])
  {
    var t := DropLeading(reply, IsSpace);
    var n := DigitRun(t);
    if n == 0 then Extraction(0, false, t)
    else
      var v := Value(t[..n]);
      if v > UintMax then Extraction(UintMax, false, t[n..]) else Extraction(v, true, t[n..])
  }

  /**
   What the stored value means: a good read is the number written after the
   leading white space; a failed read stores 0 when no digit follows the white
   space, and the largest `unsigned` when the digits there denote a larger
   number.
   */
  lemma ExtractCodeReadsNumber(reply: string)
    ensures var x := ExtractCode(reply);
      && (x.ok ==> exists w, ds :: NumberAt(reply, w, ds, x.rest) && x.code == Value(ds))
      && (!x.ok && x.code == UintMax ==> exists w, ds :: NumberAt(reply, w, ds, x.rest) && Value(ds) > UintMax)
      && (!x.ok && x.code == 0 ==> NoNumber(reply))
  {
    var t := DropLeading(reply, IsSpace);
    var n := DigitRun(t);
    if n == 0 {
      NoNumberParts(reply, t);
    } else {
      NumberAtParts(reply, t, n);
    }
  }

  /** The reply splits at the end of its white space and at the end of the digits after it. */
  lemma NumberAtParts(reply: string, t: string, n: nat)
    requires |t| <= |reply| && t == reply[|reply| - |t|..]
    requires forall k :: 0 <= k < |reply| - |t| ==> IsSpace(reply[k])
    requires 0 < n <= |t| && AllDigits(t[..n]) && (n == |t| || !IsDigit(t[n]))
    ensures exists w, ds :: NumberAt(reply, w, ds, t[n..]) && Value(ds) == Value(t[..n])
  {
    var w := reply[..|reply| - |t|];
    assert reply == w + t;
    assert t == t[..n] + t[n..];
    assert forall k :: 0 <= k < |w| ==> w[k] == reply[k];
    assert t[n..] == [] || t[n..][0] == t[n];
    assert NumberAt(reply, w, t[..n], t[n..]);
  }

  /** With no digit right after the white space, no digit follows white space only. */
  lemma NoNumberParts(reply: string, t: string)
    requires |t| <= |reply| && t == reply[|reply| - |t|..]
    requires forall k :: 0 <= k < |reply| - |t| ==> IsSpace(reply[k])
    requires t == [] || (!IsSpace(t[0]) && !IsDigit(t[0]))
    ensures NoNumber(reply)
  {
    var d := |reply| - |t|;
    forall k | 0 <= k < |reply| && (forall m :: 0 <= m < k ==> IsSpace(reply[m]))
      ensures !IsDigit(reply[k])
    {
      if k == d {
        assert reply[k] == t[0];
      }
    }
  }

  /** What `std::getline` reads: the text before the first line feed. */
  function LineOf(s: string): (l: string)
    ensures l <= s
    ensures forall k :: 0 <= k < |l| ==> l[k] != '\n'
    ensures |l| < |s| ==> s[|l|] == '\n'
    decreases |s|
  {
    if |s| == 0 || s[0] == '\n' then [] else [s[0]] + LineOf(s[1..])
  }

  /**
   `expect_response` once the reply is read: code 0 accepts anything; any
   other code accepts exactly a reply whose code as `>>` stores it equals
   that code (the largest `unsigned` when the number overflows). Otherwise
   it fails with the rest of the reply's line after a good read, and with
   nothing after a failed one.
   */
  function CheckReply(expected: ReplyCode, reply: string): (r: Outcome<string>)
    ensures expected == 0 ==> r == Pass
    ensures expected != 0 ==> (r == Pass <==> ExtractCode(reply).code == expected)
    ensures r.Fail? && !ExtractCode(reply).ok ==> r.error == []
    ensures expected != 0 && ExtractCode(reply).ok && ExtractCode(reply).code != expected ==>
      r == Fail(LineOf(ExtractCode(reply).rest))
  {
    if expected == 0 then Pass
    else
      var x := ExtractCode(reply);
      if x.code == expected then Pass
      else if x.ok then Fail(LineOf(x.rest))
      else Fail([])
  }

  /** The message of a failed check never runs past the reply's first line. */
  lemma CheckReplyErrorOnOneLine(expected: ReplyCode, reply: string)
    requires expected != 0 && ExtractCode(reply).code != expected
    ensures CheckReply(expected, reply).Fail?
    ensures forall k :: 0 <= k < |CheckReply(expected, reply).error| ==> CheckReply(expected, reply).error[k] != '\n'
  {
  }

  /** A single-line reply as section 4.2 of RFC 5321 writes it: code, space, text, CRLF. */
  function ReplyLine(code: ReplyCode, text: string): string
  {
    Show(code) + " " + text + Crlf
  }

  /** Digits followed by a non-digit are read as their value, leaving the rest. */
  lemma ExtractDigits(digits: string, tail: string)
    requires |digits| > 0 && AllDigits(digits) && Value(digits) <= UintMax
    requires tail == [] || !IsDigit(tail[0])
    ensures ExtractCode(digits + tail) == Extraction(Value(digits), true, tail)
  {
    var line := digits + tail;
    assert line[0] == digits[0];
    assert DropLeading(line, IsSpace) == line;
    DigitRunOfDigits(digits, tail);
    assert line[..|digits|] == digits;
    assert line[|digits|..] == tail;
  }

  /** The code of a well-formed reply line is read back exactly. */
  lemma ReplyLineCode(code: ReplyCode, text: string)
    ensures ExtractCode(ReplyLine(code, text)) == Extraction(code, true, " " + text + Crlf)
  {
    ValueOfShow(code);
    assert ReplyLine(code, text) == Show(code) + (" " + text + Crlf);
    ExtractDigits(Show(code), " " + text + Crlf);
  }

  /** `std::getline` stops at the line feed of a line ending in CRLF, keeping the CR. */
  lemma {:induction false} LineOfCrlf(text: string)
    requires forall k :: 0 <= k < |text| ==> text[k] != '\n'
    ensures LineOf(text + Crlf) == text + "\r"
    decreases |text|
  {
    if |text| > 0 {
      assert (text + Crlf)[1..] == text[1..] + Crlf;
      LineOfCrlf(text[1..]);
      assert [text[0]] + (text[1..] + "\r") == text + "\r";
    } else {
      assert (text + Crlf)[1..] == "\n";
    }
  }

  /**
   A reply line with code `code` passes the check for `expected` exactly when
   `expected` is 0 or `code`; otherwise the error carries the reply's text
   after the code, with its leading space and trailing CR.
   */
  lemma CheckReplyLine(expected: ReplyCode, code: ReplyCode, text: string)
    requires forall k :: 0 <= k < |text| ==> text[k] != '\n'
    ensures CheckReply(expected, ReplyLine(code, text)) == Pass <==> (expected == 0 || expected == code)
    ensures expected != 0 && expected != code ==>
      CheckReply(expected, ReplyLine(code, text)) == Fail(" " + text + "\r")
  {
    var line := " " + text;
    forall k | 0 <= k < |line|
      ensures line[k] != '\n'
    {
      if k > 0 {
        assert line[k] == text[k - 1];
      }
    }
    ReplyLineCode(code, text);
    assert " " + text + Crlf == line + Crlf;
    LineOfCrlf(line);
  }

  // ---------------------------------------------------------------------------
  // A conversation

  /** Why a conversation stopped early: a reply with the wrong code, or no reply at all. */
  datatype Stop = Rejected(message: string) | Closed

  /** The end of a conversation and what the client had written by then. */
  datatype Delivery = Delivered(wire: string) | Aborted(wire: string, reason: Stop)

  /** Every check passes on the reply read for it, in order, and no reply is missing. */
  ghost predicate AllPass<C>(ok: (C, string) -> bool, codes: seq<C>, replies: seq<string>)
    decreases |codes|
  {
    |codes| == 0 || (|replies| > 0 && ok(codes[0], replies[0]) && AllPass(ok, codes[1..], replies[1..]))
  }

  /** Agreement reply by reply: there is a reply for every check, and each passes. */
  lemma {:induction false} AllPassEach<C>(ok: (C, string) -> bool, codes: seq<C>, replies: seq<string>)
    ensures AllPass(ok, codes, replies) <==>
      |codes| <= |replies| && forall k :: 0 <= k < |codes| ==> ok(codes[k], replies[k])
    decreases |codes|
  {
    if |codes| > 0 && |replies| > 0 {
      AllPassEach(ok, codes[1..], replies[1..]);
      if ok(codes[0], replies[0]) && AllPass(ok, codes[1..], replies[1..]) {
        forall k | 1 <= k < |codes|
          ensures ok(codes[k], replies[k])
        {
          assert codes[1..][k - 1] == codes[k];
          assert replies[1..][k - 1] == replies[k];
        }
      }
    }
  }

  /** Splitting off the first check. */
  lemma AllPassCons<C>(ok: (C, string) -> bool, c: C, codes: seq<C>, replies: seq<string>)
    ensures AllPass(ok, [c] + codes, replies) <==>
      |replies| > 0 && ok(c, replies[0]) && AllPass(ok, codes, replies[1..])
  {
    assert ([c] + codes)[1..] == codes;
  }

  /** The check `expect_response` makes of one reply. */
  predicate Accepts(code: ReplyCode, reply: string)
  {
    CheckReply(code, reply) == Pass
  }

  /** The server's replies pass every check the steps make, in order. */
  ghost predicate ServerAgrees(codes: seq<ReplyCode>, replies: seq<string>)
  {
    AllPass(Accepts, codes, replies)
  }

  /**
   Running the steps against the server's reply lines, one per expected reply
   (what `read_until` hands over). The conversation ends as soon as a check
   fails or the replies run out; it is delivered exactly when every check
   passes, and the client has then written all of its requests.
   */
  function Converse(steps: seq<Step>, replies: seq<string>): (d: Delivery)
    ensures d.wire <= Wire(steps)
    ensures d.Delivered? <==> ServerAgrees(Codes(steps), replies)
    ensures d.Delivered? ==> d.wire == Wire(steps)
    decreases |steps|
  {
    if |steps| == 0 then Delivered([])
    else
      match steps[0]
      case Send(w) =>
        assert Codes(steps) == Codes(steps[1..]);
        assert Wire(steps) == w + Wire(steps[1..]);
        (match Converse(steps[1..], replies)
         case Delivered(rest) => Delivered(w + rest)
         case Aborted(rest, why) => Aborted(w + rest, why))
      case Expect(c) =>
        assert Codes(steps) == [c] + Codes(steps[1..]);
        assert Wire(steps) == Wire(steps[1..]);
        AllPassCons(Accepts, c, Codes(steps[1..]), replies);
        if |replies| == 0 then Aborted([], Closed)
        else
          match CheckReply(c, replies[0])
          case Pass => Converse(steps[1..], replies[1..])
          case Fail(m) => Aborted([], Rejected(m))
  }

  /**
   Where a failed conversation stops: the steps before the first check that
   goes wrong have all passed, so every request before it has been written.
   The conversation stops at that check, with `Closed` when its reply is
   missing and with the check's message when the reply fails it.
   */
  lemma {:induction false} ConverseStopsAtFailure(pre: seq<Step>, c: ReplyCode, post: seq<Step>, replies: seq<string>)
    requires ServerAgrees(Codes(pre), replies)
    ensures |Codes(pre)| <= |replies|
    ensures |Codes(pre)| == |replies| ==>
      Converse(pre + [Expect(c)] + post, replies) == Aborted(Wire(pre), Closed)
    ensures |Codes(pre)| < |replies| && CheckReply(c, replies[|Codes(pre)|]).Fail? ==>
      Converse(pre + [Expect(c)] + post, replies) ==
        Aborted(Wire(pre), Rejected(CheckReply(c, replies[|Codes(pre)|]).error))
    decreases |pre|, 1
  {
    AllPassEach(Accepts, Codes(pre), replies);
    if |pre| == 0 {
      var s := pre + [Expect(c)] + post;
      assert s == [Expect(c)] + post;
      assert s[0] == Expect(c);
    } else if pre[0].Send? {
      StopsAfterSend(pre, c, post, replies);
    } else {
      StopsAfterCheck(pre, c, post, replies);
    }
  }

  /** `ConverseStopsAtFailure` when the first step writes a request. */
  lemma {:induction false} StopsAfterSend(pre: seq<Step>, c: ReplyCode, post: seq<Step>, replies: seq<string>)
    requires |pre| > 0 && pre[0].Send?
    requires ServerAgrees(Codes(pre), replies)
    ensures |Codes(pre)| <= |replies|
    ensures |Codes(pre)| == |replies| ==>
      Converse(pre + [Expect(c)] + post, replies) == Aborted(Wire(pre), Closed)
    ensures |Codes(pre)| < |replies| && CheckReply(c, replies[|Codes(pre)|]).Fail? ==>
      Converse(pre + [Expect(c)] + post, replies) ==
        Aborted(Wire(pre), Rejected(CheckReply(c, replies[|Codes(pre)|]).error))
    decreases |pre|, 0
  {
    var s := pre + [Expect(c)] + post;
    assert s[0] == pre[0];
    assert s[1..] == pre[1..] + [Expect(c)] + post;
    assert Codes(pre) == Codes(pre[1..]);
    assert Wire(pre) == pre[0].wire + Wire(pre[1..]);
    ConverseStopsAtFailure(pre[1..], c, post, replies);
  }

  /** A check whose reply passes consumes that reply and moves on. */
  lemma ConverseAfterPass(c0: ReplyCode, rest: seq<Step>, replies: seq<string>)
    requires |replies| > 0 && Accepts(c0, replies[0])
    ensures Converse([Expect(c0)] + rest, replies) == Converse(rest, replies[1..])
  {
    assert ([Expect(c0)] + rest)[1..] == rest;
  }

  /** Splitting off the first element of a nonempty sequence. */
  lemma SplitHead<T>(a: seq<T>, b: seq<T>)
    requires |a| > 0
    ensures a + b == [a[0]] + (a[1..] + b)
  {
    assert (a + b)[1..] == a[1..] + b;
  }

  /** Splitting off a first step that checks a reply. */
  lemma FirstCheckViews(pre: seq<Step>, c: ReplyCode, post: seq<Step>)
    requires |pre| > 0 && pre[0].Expect?
    ensures pre + [Expect(c)] + post == [Expect(pre[0].code)] + (pre[1..] + [Expect(c)] + post)
    ensures Codes(pre) == [pre[0].code] + Codes(pre[1..])
    ensures Wire(pre) == Wire(pre[1..])
  {
    SplitHead(pre + [Expect(c)], post);
    SplitHead(pre, [Expect(c)]);
  }

  /** `ConverseStopsAtFailure` when the first step checks a reply that passes. */
  lemma {:induction false} StopsAfterCheck(pre: seq<Step>, c: ReplyCode, post: seq<Step>, replies: seq<string>)
    requires |pre| > 0 && pre[0].Expect?
    requires ServerAgrees(Codes(pre), replies)
    ensures |Codes(pre)| <= |replies|
    ensures |Codes(pre)| == |replies| ==>
      Converse(pre + [Expect(c)] + post, replies) == Aborted(Wire(pre), Closed)
    ensures |Codes(pre)| < |replies| && CheckReply(c, replies[|Codes(pre)|]).Fail? ==>
      Converse(pre + [Expect(c)] + post, replies) ==
        Aborted(Wire(pre), Rejected(CheckReply(c, replies[|Codes(pre)|]).error))
    decreases |pre|, 0
  {
    var c0 := pre[0].code;
    var rest := pre[1..] + [Expect(c)] + post;
    FirstCheckViews(pre, c, post);
    AllPassCons(Accepts, c0, Codes(pre[1..]), replies);
    assert |replies| > 0 && Accepts(c0, replies[0]) && ServerAgrees(Codes(pre[1..]), replies[1..]);
    ConverseAfterPass(c0, rest, replies);
    ConverseStopsAtFailure(pre[1..], c, post, replies[1..]);
    if |Codes(pre)| < |replies| {
      assert replies[1..][|Codes(pre[1..])|] == replies[|Codes(pre)|];
    }
  }

  /**
   Against a server that answers every step with a reply line carrying the
   expected code, the whole dialogue goes through.
   */
  lemma ConformingServerDelivers(rs: seq<string>, subject: string, message: string, text: string)
    requires forall k :: 0 <= k < |text| ==> text[k] != '\n'
    ensures var d := Dialogue(rs, subject, message);
      var codes := Codes(d);
      Converse(d, seq(|codes|, k requires 0 <= k < |codes| => ReplyLine(codes[k], text))) == Delivered(Wire(d))
  {
    var d := Dialogue(rs, subject, message);
    var codes := Codes(d);
    var replies := seq(|codes|, k requires 0 <= k < |codes| => ReplyLine(codes[k], text));
    forall k | 0 <= k < |codes|
      ensures Accepts(codes[k], replies[k])
    {
      CheckReplyLine(codes[k], codes[k], text);
    }
    AllPassEach(Accepts, codes, replies);
  }

  /** A conversation whose first step is a check ends there when the first reply fails it, or is missing. */
  lemma FirstCheckStops(steps: seq<Step>, replies: seq<string>)
    requires |steps| > 0 && steps[0].Expect?
    ensures |replies| == 0 ==> Converse(steps, replies) == Aborted([], Closed)
    ensures |replies| > 0 && CheckReply(steps[0].code, replies[0]).Fail? ==>
      Converse(steps, replies) == Aborted([], Rejected(CheckReply(steps[0].code, replies[0]).error))
  {
  }

  /**
   A server that greets with any code but 220 gets nothing written to it, not
   even HELO, and the error carries the greeting's text.
   */
  lemma GreetingRefused(rs: seq<string>, subject: string, message: string, code: ReplyCode, text: string, later: seq<string>)
    requires code != 220
    requires forall k :: 0 <= k < |text| ==> text[k] != '\n'
    ensures Converse(Dialogue(rs, subject, message), [ReplyLine(code, text)] + later) == Aborted([], Rejected(" " + text + "\r"))
  {
    var d := Dialogue(rs, subject, message);
    var replies := [ReplyLine(code, text)] + later;
    assert d[0] == Expect(220);
    assert replies[0] == ReplyLine(code, text);
    CheckReplyLine(220, code, text);
    FirstCheckStops(d, replies);
  }

  /** A server that never answers gets nothing written to it. */
  lemma SilentServer(rs: seq<string>, subject: string, message: string)
    ensures Converse(Dialogue(rs, subject, message), []) == Aborted([], Closed)
  {
    var d := Dialogue(rs, subject, message);
    assert d[0] == Expect(220);
    FirstCheckStops(d, []);
  }
}

=== FILE: text.dfy ===
/**
 Substring search and line splitting over strings, the two text primitives the
 failure-log classifier is built from.
 */
module Text {
  import opened Wrappers

  /** `p` occurs in `s` starting at index `i`. */
  predicate Occurs(p: string, s: string, i: int)
  {
    0 <= i && i + |p| <= |s| && s[i..i + |p|] == p
  }

  /** `p` occurs somewhere in `s` (the meaning of `std::string::find(p) != npos`). */
  ghost predicate HasSubstring(s: string, p: string)
  {
    exists i :: Occurs(p, s, i)
  }

  /** The first index at or after `from` where `p` occurs in `s`, if any. */
  function FindFrom(s: string, p: string, from: nat): (r: Option<nat>)
    ensures r.Some? ==> from <= r.value && Occurs(p, s, r.value)
    ensures r.Some? ==> forall k :: from <= k < r.value ==> !Occurs(p, s, k)
    ensures r.None? ==> forall k :: from <= k ==> !Occurs(p, s, k)
    decreases |s| - from
  {
    if |s| < from + |p| then None
    else if s[from..from + |p|] == p then Some(from)
    else FindFrom(s, p, from + 1)
  }

  /** Executable substring test. */
  function Contains(s: string, p: string): (b: bool)
    ensures b <==> HasSubstring(s, p)
  {
    FindFrom(s, p, 0).Some?
  }

  /** An occurrence inside the first `n` characters is an occurrence in the whole string. */
  lemma OccursInPrefix(p: string, s: string, n: nat, i: int)
    requires n <= |s|
    ensures Occurs(p, s[..n], i) <==> (Occurs(p, s, i) && i + |p| <= n)
  {
    if 0 <= i && i + |p| <= n {
      assert s[..n][i..i + |p|] == s[i..i + |p|];
    }
  }

  /** Occurrences in a suffix are the occurrences of the whole string, shifted by `d`. */
  lemma OccursInSuffix(p: string, s: string, d: nat, i: int)
    requires d <= |s|
    ensures Occurs(p, s[d..], i) <==> (0 <= i && Occurs(p, s, i + d))
  {
    if 0 <= i && i + |p| <= |s| - d {
      assert s[d..][i..i + |p|] == s[i + d..i + d + |p|];
    }
  }

  /** `p` occurs in `a + p + b` right after `a`. */
  lemma OccursBetween(a: string, p: string, b: string)
    ensures Occurs(p, a + p + b, |a|)
    ensures HasSubstring(a + p + b, p)
  {
    assert (a + p + b)[|a|..|a| + |p|] == p;
    assert Occurs(p, a + p + b, |a|);
  }

  /**
   The characters Boost.Regex treats as line separators for narrow characters
   (`is_separator`): line feed, carriage return and form feed.
   */
  predicate IsLineBreak(c: char)
  {
    c == '\n' || c == '\r' || c == '\U{C}'
  }

  /** `s` contains no line separator. */
  predicate OnOneLine(s: string)
  {
    forall k :: 0 <= k < |s| ==> !IsLineBreak(s[k])
  }

  /** Index of the first line separator in `s`, or `|s|` when there is none. */
  function LineEnd(s: string): (e: nat)
    ensures e <= |s|
    ensures OnOneLine(s[..e])
    ensures e < |s| ==> IsLineBreak(s[e])
    decreases |s|
  {
    if |s| == 0 || IsLineBreak(s[0]) then 0 else 1 + LineEnd(s[1..])
  }

  /**
   The lines of `s`: the maximal separator-free pieces between separators.
   A text with `n` separators has `n + 1` lines (some possibly empty).
   */
  function Lines(s: string): (ls: seq<string>)
    ensures |ls| >= 1
    ensures forall k :: 0 <= k < |ls| ==> OnOneLine(ls[k])
    decreases |s|
  {
    var e := LineEnd(s);
    if e == |s| then [s] else [s[..e]] + Lines(s[e + 1..])
  }

  /** `s` without its longest prefix of characters satisfying `drop`. */
  function DropLeading(s: string, drop: char -> bool): (r: string)
    ensures |r| <= |s| && r == s[|s| - |r|..]
    ensures forall k :: 0 <= k < |s| - |r| ==> drop(s[k])
    ensures r == [] || !drop(r[0])
    decreases |s|
  {
    if |s| > 0 && drop(s[0]) then DropLeading(s[1..], drop) else s
  }
}

=== FILE: wrappers.dfy ===
/** Option, result and pass/fail types shared by the rest of the model. */
module Wrappers {

  /** A value that may be absent. */
  datatype Option<+T> = None | Some(value: T)

  /** The outcome of an operation that either produces a value or reports an error. */
  datatype Result<+R, +E> = Success(value: R) | Failure(error: E)

  /** The outcome of a check that carries no value: it passes or fails with an error. */
  datatype Outcome<+E> = Pass | Fail(error: E)
}
